=== FILE: README.md ===
# Asynchronous logger model

This project models the header-only C++ logger `bb::core::Logger`
(`src/Logger.hpp`) and proves what it promises its callers. The logger is a
process-wide singleton. It keeps:

- a minimum `LogLevel`;
- a log-file path, `./log.txt` by default;
- a `_logToFile` flag and an `fstream`;
- a FIFO queue of `LogMessage` records, fed by the producers `Log`,
  `LogToFile` and `EnableFileLogging`.

A worker thread pops records and writes them. Every record goes to the
console. File records also go to the file while file logging is on and the
file is open. The destructor stops the worker and drains what is left, this
time to one sink only: the file for a live file record, the console
otherwise.

The model has six modules:

- `Text`: the C-library pieces the formatter uses. `strstr` is `IndexOf`, the
  first occurrence. `strrchr` is `LastIndexOf`, the last occurrence.
  `std::erase` of one character is `Erase`. The decimal text of a line number
  is `Decimal`.
- `Levels`: the enum order, `toString` (`Label`) and `LevelColour`
  (`Colour`).
- `Format`: `format`, which covers the file-name shortening (`ShortFile`) and
  the two layouts, `ConsoleLine` and `FileLine`.
- `Logging`: the logger state and its operations.
  - `WorkerStep` is one turn of the worker loop.
  - `Drain` and `Shutdown` are the destructor.
  - `Run` applies any interleaving of producer calls and worker turns.
- `LoggingProperties`: the promises, each stated over the model as a lemma.
- `FileStream`: the behaviour of the `fstream` that the finding below rests on.

The logger is immutable in the model: every operation is a function from one
`Logger` value to the next. The console and the file are sequences of
written texts. Whatever the program gets from outside arrives as a parameter:

- whether `open` succeeds (`openOk`);
- the `ctime` text (`timestamp`);
- the already substituted `{}` text (`payload`);
- the `std::source_location` the compiler records (`Where`, or `site` for the
  logger's own calls at lines 67 and 83).

Points of the code the model keeps as written:

- `Log(Off, …)` with the minimum at `Off` is admitted, because `Off < Off`
  is false. Its label is empty and its colour is the reset sequence.
- A failed open is reported at `Error` (line 67).
- The console layout puts the label in brackets, `[INFO]` (line 192).
- The short file name keeps the `src/` marker it was found by (line 176).

## Model

| member | source | states |
|---|---|---|
| Levels.Rank | src/Logger.hpp:33-41 | Levels run from 0 (Trace) to 6 (Off); only Trace is 0 and only Off is 6 |
| Levels.BelowIsStrictTotalOrder | src/Logger.hpp:33-41 | The `<` used by the level gate is a strict total order with Trace at the bottom and Off at the top |
| Levels.LevelsAscend | src/Logger.hpp:33-41 | The levels rise in their declaration order, Trace < Debug < Info < Warn < Error < Fatal < Off, with no level between two neighbours |
| Levels.RankInjective | src/Logger.hpp:33-41 | Two levels have the same enum value exactly when they are the same level |
| Levels.Label | src/Logger.hpp:202-222 | A label is empty exactly for Off, and no label holds `]`, an escape or a line break |
| Levels.LabelRoundTrip | src/Logger.hpp:202-222 | Reading a printed label back gives the level that printed it |
| Levels.LabelInjective | src/Logger.hpp:202-222 | No two levels print the same label |
| Levels.Colour | src/Logger.hpp:224-242 | Every colour opens with an escape; the reset sequence is given to Off and to no emitted level |
| Levels.ColourRoundTrip | src/Logger.hpp:224-242 | Each level gets its own colour, read back by the inverse table: grey for Trace, blue for Debug, green for Info, yellow for Warn, red for Error, white on red for Fatal, and the reset sequence (the `default` branch) for Off |
| Levels.ColourInjective | src/Logger.hpp:224-242 | Distinct levels have distinct colours |
| Text.IndexOf | src/Logger.hpp:176 | `strstr`: the result is an occurrence with none before it, and there is none exactly when the pattern does not occur |
| Text.IndexOfIsFirst | src/Logger.hpp:176 | Any occurrence with none before it is the one `strstr` returns |
| Text.LastIndexOf | src/Logger.hpp:178 | `strrchr`: the result holds the character and no later position does; there is none exactly when the character is absent |
| Text.LastIndexOfAt | src/Logger.hpp:178 | Any position holding the character with none after it is the one `strrchr` returns |
| Text.Erase | src/Logger.hpp:186 | `std::erase` leaves no copy of the character and never lengthens the text |
| Text.EraseCounts | src/Logger.hpp:186 | `std::erase` removes every copy of the character and keeps every other character, counted with multiplicity |
| Text.EraseDistributes | src/Logger.hpp:186 | Erasing from a concatenation erases from each part and keeps them in order |
| Text.EraseKeepsLacking | src/Logger.hpp:186 | A text without the character is left unchanged |
| Text.EraseIdempotent | src/Logger.hpp:186 | Erasing twice is erasing once |
| Text.Decimal | src/Logger.hpp:187-188 | The printed line number is non-empty, all digits, with no leading zero |
| Text.DecimalRoundTrip | src/Logger.hpp:187-188 | Reading the printed line number back gives the line |
| Text.DecimalInjective | src/Logger.hpp:187-188 | Different lines print differently |
| Format.ShortFile | src/Logger.hpp:175-180 | The shown name is a tail of the full name. It starts at the first `src/` when there is one; otherwise it follows a `/` and holds none; otherwise it is the whole name |
| Format.ShortFileIsTheShortName | src/Logger.hpp:175-180 | Exactly one tail satisfies the shortening rule, stated independently, and `ShortFile` returns it |
| Format.ShortFileKeepsMarker | src/Logger.hpp:176 | When the name holds `src/`, the shown name starts with `src/` |
| Format.ConsoleLine | src/Logger.hpp:192-194 | A console line opens with the level's colour and ends with the payload, the reset sequence and a line break; its full layout is stated by `Format.ParseConsoleLineRoundTrip` |
| Format.ParseConsoleLineRoundTrip | src/Logger.hpp:192-194 | A console line is the level's colour, `[`, the label, `] `, the short file name, `:`, the line, ` in function `, the reset sequence, `'`, the function name, `'`, the colour again, `: `, the payload, the reset sequence and a line break: the level, file name, line, function name and payload read back from the text, whenever neither name has a `'` |
| Format.ParseConsoleTailRoundTrip | src/Logger.hpp:192-194 | Everything after the label of a console line reads back as the short file name, the line, the function name and the payload, whenever neither name has a `'` |
| Format.ConsoleTailCuts | src/Logger.hpp:192-194 | After the label, a console line is cut at the quotes and the colour into the origin, the function name and the payload, whatever the origin text is, provided the origin, the name and the colour hold no `'` and the colour no `:` |
| Format.ConsoleHeadRoundTrip | src/Logger.hpp:192 | The colour and the bracketed label at the head of a console line read back as the level |
| Format.ParseConsoleLine | src/Logger.hpp:192-194 | Whatever reads back as a console line opens with the colour of the level read back |
| Format.ParseConsoleTail | src/Logger.hpp:193-194 | Whatever part after the label reads back ends with the payload read back, the reset sequence and a line break |
| Format.ColourParts | src/Logger.hpp:23-29 | Every colour is an escape sequence closed by its only `m`, and holds neither `'` nor `:`, so the console parser can find its end |
| Format.FileLine | src/Logger.hpp:182-189 | A file line opens with `[` and ends with the payload and a line break; its full layout is stated by `Format.ParseFileLineRoundTrip` |
| Format.FileOrigin | src/Logger.hpp:187-189 | The origin part of a file line ends with the payload |
| Format.SplitAt | src/Logger.hpp:187-194 | The parsers' cutting step, which reads back the separators that the file layout of line 187 and the console layout of line 192 put between their fields: the text is cut at the first occurrence of a separator into the parts before and after it, which rejoin to the text; there is no cut exactly when the separator is absent |
| Format.ParseOriginRoundTrip | src/Logger.hpp:187-188 | `file:line` followed by a separator reads back as the short file name and the line |
| Format.Render | src/Logger.hpp:167-195 | Every rendered line ends with a line break, and it opens with an escape exactly when it is not for the file |
| Format.ColourOnlyOnConsole | src/Logger.hpp:182-194 | Every console line holds an escape; no file line does when its inputs do not |
| Format.FileLineIsOneLine | src/Logger.hpp:183-189 | A file line's only line break is its last character, though the `ctime` text arrives with one, when the payload and the file and function names hold none |
| Format.ParseTailCuts | src/Logger.hpp:187-188 | After the label, a file line is cut at the quotes into the origin, the function name and the payload, whatever the origin text is, provided the origin and the name hold no `'` |
| Format.ParseFileLineRoundTrip | src/Logger.hpp:182-189 | A file line is `[`, the timestamp with its line breaks erased, `] - [`, the label, `] `, the short file name, `:`, the line, ` in function '`, the function name, `': `, the payload and a line break: each of these fields reads back from the text, whenever the timestamp has no `]` and neither name has a `'` |
| Logging.New | src/Logger.hpp:245-257 | A new logger has the minimum level Trace, so every level passes the gate; the path is `./log.txt`; file logging is off and the file is closed, so the flag and the handle agree; nothing is queued, printed or written |
| Logging.SetLevel | src/Logger.hpp:57 | The minimum becomes the given level and nothing else changes |
| Logging.SetLogfilePath | src/Logger.hpp:59-61 | The stored path becomes the given one and nothing else changes; an open file stays open |
| Logging.PushToQ | src/Logger.hpp:197-200 | The record joins the back of the queue and nothing else changes |
| Logging.Log | src/Logger.hpp:101-118 | A record below the minimum changes nothing. Otherwise exactly one console record in the console layout joins the back of the queue and nothing else changes |
| Logging.LogToFile | src/Logger.hpp:79-99 | With file logging on, exactly one file record joins the queue. With it off, the call is the Warn `Log` of the misuse and adds no file record |
| Logging.EnableFileLogging | src/Logger.hpp:63-77 | File logging ends on exactly when enabling found or made the handle open. A failed open enqueues the Error record. Flag and handle agree afterwards |
| Logging.WorkerStep | src/Logger.hpp:127-138 | The front record is popped and printed to the console, and also written to the file when it is a file record and the sink is live. An empty queue changes nothing |
| Logging.Drain | src/Logger.hpp:150-157 | The queue empties. Each residual record goes to the file if it is a live file record and to the console otherwise, in queue order |
| Logging.Shutdown | src/Logger.hpp:150-161 | The queue ends empty and the file closed. Earlier output is kept, and the residual records are written exactly once each, to one sink |
| Logging.Apply | src/Logger.hpp:57-118 | A producer call only appends to the queue and writes nothing; every operation keeps the flag and the handle in agreement |
| Logging.LogAddsNoFileRecord | src/Logger.hpp:107 | Whatever `Log` enqueues is a console record |
| LoggingProperties.LevelGate | src/Logger.hpp:104-105 | After `SetLevel(m)`, a record below `m` is dropped and one at or above `m` enqueues one record |
| LoggingProperties.OffSilencesEveryLevel | src/Logger.hpp:104-105 | With the minimum at Off, no level from Trace to Fatal gets through |
| LoggingProperties.NewLoggerAdmitsEveryLevel | src/Logger.hpp:250 | A new logger's minimum is Trace, so every level is queued |
| LoggingProperties.LogQueues | src/Logger.hpp:101-118 | An admitted `Log` appends its console record and changes neither the console nor the minimum |
| LoggingProperties.FileRecordsBypassTheGate | src/Logger.hpp:79-99 | With file logging on, `LogToFile` enqueues a file record of its level whatever the minimum is |
| LoggingProperties.FileLogBeforeEnable | src/Logger.hpp:82-86 | Before enabling, `LogToFile` enqueues one Warn console record and nothing ever reaches the file, through any number of worker turns and shutdown |
| LoggingProperties.FailedEnable | src/Logger.hpp:63-71 | A failed open on a new logger leaves file logging off and enqueues one Error record; a later `LogToFile` gets the not-enabled warning |
| LoggingProperties.SuccessfulEnable | src/Logger.hpp:63-77 | A successful open turns file logging on and enqueues nothing |
| LoggingProperties.DisableIdempotent | src/Logger.hpp:72-76 | Disabling twice is disabling once |
| LoggingProperties.PathOnlyChangesPath | src/Logger.hpp:59-61 | Setting the path changes nothing but the path; the default path is `./log.txt` |
| LoggingProperties.RunKeepsSynced | src/Logger.hpp:63-77 | The flag and the handle agree after any interleaving of calls and worker turns |
| LoggingProperties.WorkerStepsKeepState | src/Logger.hpp:127-138 | Worker turns change only the queue and the two outputs |
| LoggingProperties.WorkerNeverWritesFileWhenNotLive | src/Logger.hpp:132-134 | Without a live sink the worker never writes the file |
| LoggingProperties.WorkerFifo | src/Logger.hpp:127-138 | `k` worker turns pop the first `k` records. They print those records in queue order, write the live file records among them to the file in queue order, and leave the rest queued |
| LoggingProperties.WorkerPopsInOrder | src/Logger.hpp:127-129 | `k` worker turns leave exactly the records after the first `k` queued |
| LoggingProperties.WorkerPrintsInOrder | src/Logger.hpp:127-138 | `k` worker turns print the first `k` records in queue order |
| LoggingProperties.WorkerFilesInOrder | src/Logger.hpp:127-134 | `k` worker turns write the live file records among the first `k` to the file, in queue order |
| LoggingProperties.WriteOrderIsCallOrder | src/Logger.hpp:116-138 | Three `Log` calls followed by three worker turns print the three lines in call order |
| LoggingProperties.ThreeLogsQueued | src/Logger.hpp:101-116 | Three admitted `Log` calls on an idle logger leave exactly their three console records in the queue, in call order, and print nothing yet |
| LoggingProperties.TwoLogsQueued | src/Logger.hpp:101-116 | Two admitted `Log` calls on an idle logger leave exactly their two console records in the queue, in call order, and keep the level |
| LoggingProperties.RunConservesRecords | src/Logger.hpp:97-138 | Under any interleaving, the printed lines followed by the queued ones are the earlier ones followed by every record produced meanwhile, in order |
| LoggingProperties.ShutdownLosesNothing | src/Logger.hpp:143-162 | Whenever shutdown comes, every queued record is among what has been written at the end, counted with multiplicity |
| LoggingProperties.ShutdownWithoutFileSink | src/Logger.hpp:150-157 | Without a live sink at shutdown, every residual record, file records included, is printed in queue order and the file is untouched |
| FileStream.Open | src/Logger.hpp:65 | Opening a closed stream gives an open, good stream exactly when the open succeeds; opening an open one leaves it open but not good |
| FileStream.Write | src/Logger.hpp:133 | A write appends the text exactly when the stream is open and good |
| FileStream.EnableAsWritten | src/Logger.hpp:63-77 | As written, file logging is on afterwards exactly when enabling was asked for and the stream is open |
| FileStream.SecondEnableLosesFileRecords | src/Logger.hpp:63-77 | As written, after two enables file logging is on and the stream open, but a file write is lost |
| FileStream.ReEnableKeepsFileSink | src/Logger.hpp:63-77 | In the model, a file record logged after a second enable reaches the file |

## Left out

- The worker thread, `_qMutex`, `_cv` and `_running` are not modelled. Each
  producer call and each worker turn is one atomic step, and `Run` takes any
  interleaving of them. The lock makes queue pushes and pops atomic in the
  code too. The worker's reads of `_logToFile` and of the stream outside the
  lock are not modelled as races.
- The destructor's stop-and-join: `Shutdown` applies to whatever state the
  worker left, reached by any number of worker turns.
- `std::vformat` and the `{}` substitution: the payload arrives already
  substituted.
- `std::chrono`, `ctime` and the clock: the timestamp text is a parameter.
- `std::source_location::current()`: it is a `Where` parameter, including
  for the logger's own records at lines 67 and 83.
- `Self()`, the singleton, and the deleted copy operations: the model works
  on logger values.
- The `LOG_*`/`FLOG_*` macros, `NDEBUG`, `ENABLE_FILE_LOGGING` and
  `SET_LOG_FILE`: they only forward to the modelled calls.
- `Defines.hpp` is not part of this model.
- The file system: which file a path names, and whether `open` succeeds. The
  result of `open` is the `openOk` parameter, and the path is only stored.
- `toString`'s `"UNKNOWN"` return is unreachable for the seven enum values
  and is not modelled.
- `.c_str()` on the `std::string_view` constants (lines 173 and 227-240):
  `string_view` has no such member, so the header does not compile as
  written. The model reads each call as the view's characters.
- C strings cannot hold NUL; strings are `seq<char>`, and the searches do
  not look for a terminator.
- Logging.EnableFileLogging: the logger model does not track the stream's
  error state. That is the corrected behaviour of the finding below. The
  as-written behaviour is modelled separately in `FileStream`.
- Allocation failures and exceptions inside `noexcept` functions are not
  modelled.

## Findings

| source | as written | input that shows it | evidently intended | confidence | as-written member | corrected member |
|---|---|---|---|---|---|---|
| src/Logger.hpp:63-77 | `EnableFileLogging(true)` calls `open` even when the stream is already open. That `open` fails and sets `failbit`, but `is_open()` stays true, so `_logToFile` becomes true and no error is logged. Every later `_logFile << message` is then a no-op. | `EnableFileLogging(true)` twice with a path that opens, then `LogToFile(Info, …)` | Re-enabling while enabled keeps writing file records to the open file, or reports the failure | medium, not executed | FileStream.SecondEnableLosesFileRecords | FileStream.ReEnableKeepsFileSink |

=== FILE: format.dfy ===
/** The pure formatter `Logger::format`: where a record comes from, how
    much of its file name is shown, and the two line layouts (coloured for
    the console, timestamped for the file). The `{}` substitution itself is
    not modelled: the substituted text arrives as `payload`. */
module Format {
  import opened Text
  import opened Levels

  /** A `std::source_location`: file name, line and function name. */
  datatype Where = Where(file: string, line: nat, func: string)

  const SRC_MARKER: string := "src/"

  /** `format`'s file-name shortening: from the FIRST `src/` on (the marker
      included), else what follows the last `/`, else the whole name. */
  function ShortFile(full: string): (r: string)
    ensures IsSuffix(r, full)
    ensures Contains(full, SRC_MARKER) ==>
              && OccursAt(full, SRC_MARKER, |full| - |r|)
              && forall j :: 0 <= j < |full| - |r| ==> !OccursAt(full, SRC_MARKER, j)
    ensures !Contains(full, SRC_MARKER) && !Lacks(full, '/') ==>
              && |r| < |full|
              && full[|full| - |r| - 1] == '/'
              && Lacks(r, '/')
    ensures !Contains(full, SRC_MARKER) && Lacks(full, '/') ==> r == full
  {
    match IndexOf(full, SRC_MARKER)
    case Some(i) => full[i..]
    case None =>
      match LastIndexOf(full, '/')
      case Some(j) => full[j + 1..]
      case None => full
  }

  /** An independent statement of which tail of `full` is its short name. */
  ghost predicate IsShortName(full: string, r: string) {
    && IsSuffix(r, full)
    && var start := |full| - |r|;
    if Contains(full, SRC_MARKER) then
      && OccursAt(full, SRC_MARKER, start)
      && forall j :: 0 <= j < start ==> !OccursAt(full, SRC_MARKER, j)
    else if Lacks(full, '/') then
      start == 0
    else
      0 < start && full[start - 1] == '/' && Lacks(r, '/')
  }

  /** Exactly one tail of a file name is its short name, and `ShortFile`
      finds it. */
  lemma ShortFileIsTheShortName(full: string, r: string)
    ensures IsShortName(full, r) <==> r == ShortFile(full)
  {
    var s := ShortFile(full);
    if IsShortName(full, r) {
      var a, b := |full| - |r|, |full| - |s|;
      if !Contains(full, SRC_MARKER) && !Lacks(full, '/') {
        assert full[a..] == r && full[b..] == s;
        CharBeforeFreeTail(full, a, b - 1, '/');
        CharBeforeFreeTail(full, b, a - 1, '/');
      }
      assert a == b;
    }
  }

  /** When the name holds `src/`, the shown name starts with it. */
  lemma ShortFileKeepsMarker(full: string)
    requires Contains(full, SRC_MARKER)
    ensures |ShortFile(full)| >= 4 && ShortFile(full)[..4] == SRC_MARKER
  {
    var r := ShortFile(full);
    var start := |full| - |r|;
    assert full[start..] == r;
    assert full[start..start + 4] == SRC_MARKER;
    assert r[..4] == full[start..start + 4];
  }

  /** What separates the timestamp from the level label in a file line. */
  const LEVEL_OPEN: string := "] - ["

  /** `file:line` as both layouts print it. */
  function OriginText(where: Where): string {
    ShortFile(where.file) + ":" + Decimal(where.line)
  }

  /** The console layout: coloured level and origin, the function name in
      quotes with the colour reset around it, then the payload, the reset
      sequence and a line break. */
  function ConsoleLine(level: LogLevel, where: Where, payload: string): (r: string)
    ensures |Colour(level)| <= |r| && r[..|Colour(level)|] == Colour(level)
    ensures IsSuffix(payload + COLOR_RESET + "\n", r)
  {
    var colour := Colour(level);
    var middle := "[" + Label(level) + "] " + OriginText(where) + " in function "
                  + COLOR_RESET + "'" + where.func + "'" + colour + ": ";
    var tail := payload + COLOR_RESET + "\n";
    JoinEnds(colour, middle, tail);
    colour + (middle + tail)
  }

  /** The file layout, `[ts] - [LABEL] file:line in function 'fn': payload`
      and a line break, where `ts` is the timestamp with every line break
      erased. */
  function FileLine(level: LogLevel, where: Where, payload: string, timestamp: string): (r: string)
    ensures |r| > 0 && r[0] == '['
    ensures IsSuffix(payload + "\n", r)
  {
    var origin := FileOrigin(where, payload);
    var head := "[" + Erase(timestamp, '\n') + LEVEL_OPEN;
    var r := head + (Label(level) + "]" + (origin + "\n"));
    SuffixAppend(payload, origin, "\n");
    SuffixPrepend(payload + "\n", Label(level) + "]", origin + "\n");
    SuffixPrepend(payload + "\n", head, Label(level) + "]" + (origin + "\n"));
    r
  }

  /** What a file line holds between its level label and its line break. */
  function FileOrigin(where: Where, payload: string): (r: string)
    ensures IsSuffix(payload, r)
  {
    " " + OriginText(where) + " in function '" + where.func + "': " + payload
  }

  /** `format`: the layout is picked by the destination; the file layout is
      the only one that does not open with an escape sequence. */
  function Render(level: LogLevel, where: Where, payload: string, toFile: bool, timestamp: string): (r: string)
    ensures |r| > 0 && r[|r| - 1] == '\n'
    ensures r[0] == ESC <==> !toFile
  {
    if toFile then FileLine(level, where, payload, timestamp) else ConsoleLine(level, where, payload)
  }

  /** Neither layout holds a character that none of its inputs hold. */
  lemma OriginLacks(where: Where, c: char)
    requires Lacks(where.file, c) && !IsDigit(c) && c != ':'
    ensures Lacks(OriginText(where), c)
  {
    var s := ShortFile(where.file);
    LacksSuffix(s, where.file, c);
    DigitsLack(Decimal(where.line), c);
    LacksConcat(s, ":", c);
    LacksConcat(s + ":", Decimal(where.line), c);
  }

  /** Colour codes appear in every console line and in no file line whose
      inputs are free of them. */
  lemma ColourOnlyOnConsole(level: LogLevel, where: Where, payload: string, timestamp: string)
    requires Lacks(where.file, ESC) && Lacks(where.func, ESC)
    requires Lacks(payload, ESC) && Lacks(timestamp, ESC)
    ensures !Lacks(ConsoleLine(level, where, payload), ESC)
    ensures Lacks(FileLine(level, where, payload, timestamp), ESC)
  {
    assert ConsoleLine(level, where, payload)[0] == ESC;
    LacksAfterErase(timestamp, '\n', ESC);
    FileLineText(level, where, payload, timestamp, ESC);
    LacksUpToLast(FileLine(level, where, payload, timestamp), ESC);
  }

  lemma LacksAfterErase(s: string, c: char, d: char)
    requires Lacks(s, d)
    ensures Lacks(Erase(s, c), d)
  {
    EraseCounts(s, c, d);
    assert d !in s;
    assert multiset(s)[d] == 0;
    assert d !in Erase(s, c);
  }

  /** None of the fixed pieces of the file layout holds an escape or a
      line break. */
  lemma LayoutLacks(c: char)
    requires c == ESC || c == '\n'
    ensures Lacks(" ", c) && Lacks(" in function '", c) && Lacks("': ", c)
    ensures Lacks("[", c) && Lacks(LEVEL_OPEN, c) && Lacks("]", c) && Lacks(":", c) && !IsDigit(c)
  {
  }

  /** The characters a file line can hold beyond those of its inputs are
      the fixed ones of its layout, neither of them an escape or a line
      break. */
  lemma FileOriginLacks(where: Where, payload: string, c: char)
    requires c == ESC || c == '\n'
    requires Lacks(where.file, c) && Lacks(where.func, c) && Lacks(payload, c)
    ensures Lacks(FileOrigin(where, payload), c)
  {
    LayoutLacks(c);
    OriginLacks(where, c);
    LacksConcat(" ", OriginText(where), c);
    LacksConcat(" " + OriginText(where), " in function '", c);
    LacksConcat(" " + OriginText(where) + " in function '", where.func, c);
    LacksConcat(" " + OriginText(where) + " in function '" + where.func, "': ", c);
    LacksConcat(" " + OriginText(where) + " in function '" + where.func + "': ", payload, c);
  }

  /** A file line without its final line break. */
  lemma FileLineText(level: LogLevel, where: Where, payload: string, timestamp: string, c: char)
    requires c == ESC || c == '\n'
    requires Lacks(where.file, c) && Lacks(where.func, c) && Lacks(payload, c)
    requires Lacks(Erase(timestamp, '\n'), c)
    ensures var r := FileLine(level, where, payload, timestamp);
            r[|r| - 1] == '\n' && Lacks(r[..|r| - 1], c)
  {
    LayoutLacks(c);
    var ts := Erase(timestamp, '\n');
    var origin := FileOrigin(where, payload);
    FileOriginLacks(where, payload, c);
    LacksConcat("[", ts, c);
    LacksConcat("[" + ts, LEVEL_OPEN, c);
    LacksConcat(Label(level), "]", c);
    LacksConcat(Label(level) + "]", origin, c);
    var text := "[" + ts + LEVEL_OPEN + (Label(level) + "]" + origin);
    LacksConcat("[" + ts + LEVEL_OPEN, Label(level) + "]" + origin, c);
    var r := FileLine(level, where, payload, timestamp);
    assert r == text + "\n";
    assert r[..|r| - 1] == text;
  }

  /** A file record is exactly one line: its only line break is the last
      character, even though the timestamp text arrives with one. */
  lemma FileLineIsOneLine(level: LogLevel, where: Where, payload: string, timestamp: string)
    requires Lacks(where.file, '\n') && Lacks(where.func, '\n') && Lacks(payload, '\n')
    ensures var r := FileLine(level, where, payload, timestamp);
            r[|r| - 1] == '\n' && Lacks(r[..|r| - 1], '\n')
  {
    FileLineText(level, where, payload, timestamp, '\n');
  }

  /** The fields a file line carries, as read back from its text. */
  datatype FileFields = FileFields(timestamp: string, level: LogLevel, file: string, line: nat,
                                   func: string, payload: string)

  /** What precedes the quoted function name in both layouts. */
  const IN_FUNCTION: string := " in function "

  /** `s` cut around the first occurrence of `pat`. */
  function SplitAt(s: string, pat: string): (r: Option<(string, string)>)
    ensures r.Some? ==> s == r.value.0 + pat + r.value.1
    ensures r.Some? ==> forall j :: 0 <= j < |r.value.0| ==> !OccursAt(s, pat, j)
    ensures r.None? <==> !Contains(s, pat)
  {
    match IndexOf(s, pat)
    case None => None
    case Some(k) =>
      assert s[k..k + |pat|] == pat;
      assert s == s[..k] + pat + s[k + |pat|..];
      Some((s[..k], s[k + |pat|..]))
  }

  /** A pattern is first found right after a prefix that lacks its first
      character. */
  lemma FirstAfterFreePrefix(pre: string, pat: string, post: string)
    requires |pat| > 0 && Lacks(pre, pat[0])
    ensures IndexOf(pre + pat + post, pat) == Some(|pre|)
  {
    var s := pre + pat + post;
    assert s[|pre|..|pre| + |pat|] == pat;
    forall j | 0 <= j < |pre| ensures !OccursAt(s, pat, j) {
      assert s[j] == pre[j];
      if j + |pat| <= |s| {
        assert s[j..j + |pat|][0] == s[j];
      }
    }
    IndexOfIsFirst(s, pat, |pre|);
  }

  /** A pattern whose first character the prefix lacks cuts the text right
      after that prefix. */
  lemma SplitAtFirst(pre: string, pat: string, post: string)
    requires |pat| > 0 && Lacks(pre, pat[0])
    ensures SplitAt(pre + pat + post, pat) == Some((pre, post))
  {
    var s := pre + pat + post;
    FirstAfterFreePrefix(pre, pat, post);
    assert s[..|pre|] == pre;
    assert s[|pre| + |pat|..] == post;
  }

  /** Reads `file:line in function ` back into the short file name and the
      line: the line is the digits after the LAST `:`. */
  function ParseOrigin(s: string, sep: string): (r: Option<(string, nat)>)
    ensures r.Some? ==> IsSuffix(sep, s)
  {
    if |s| < |sep| || s[|s| - |sep|..] != sep then None
    else ParseFileAndLine(s[..|s| - |sep|])
  }

  /** `file:line` cut at its last `:`, the line read back from its digits. */
  function ParseFileAndLine(origin: string): (r: Option<(string, nat)>)
    ensures r.Some? ==> |r.value.0| < |origin| && origin[|r.value.0|] == ':'
                        && origin[..|r.value.0|] == r.value.0
  {
    match LastIndexOf(origin, ':')
    case None => None
    case Some(c) =>
      var digits := origin[c + 1..];
      if |digits| == 0 || !AllDigits(digits) then None
      else Some((origin[..c], DecimalValue(digits)))
  }

  /** Reads a file line back into its fields: the timestamp between `[`
      and the first `] - [`, the label up to the next `] `, then the rest
      as `ParseTail` reads it, and the final line break. */
  function ParseFileLine(line: string): (r: Option<FileFields>)
    ensures r.Some? ==> |line| >= 2 && line[0] == '[' && line[|line| - 1] == '\n'
  {
    if |line| < 2 || line[0] != '[' || line[|line| - 1] != '\n' then None
    else ParseBody(line[1..|line| - 1])
  }

  /** A file line between its opening `[` and its final line break. */
  function ParseBody(body: string): (r: Option<FileFields>)
    ensures r.Some? ==> Contains(body, LEVEL_OPEN)
  {
    match SplitAt(body, LEVEL_OPEN)
    case None => None
    case Some((ts, afterTs)) =>
      match SplitAt(afterTs, "] ")
      case None => None
      case Some((lbl, afterLbl)) =>
        match (LevelOfLabel(lbl), ParseTail(afterLbl))
        case (Some(level), Some((file, n, func, payload))) => Some(FileFields(ts, level, file, n, func, payload))
        case _ => None
  }

  /** What follows the label: the origin up to the first `'`, the function
      name up to the next `': `, and the payload. */
  function ParseTail(s: string): (r: Option<(string, nat, string, string)>)
    ensures r.Some? ==> IsSuffix(r.value.3, s)
  {
    match SplitAt(s, "'")
    case None => None
    case Some((originIn, afterQuote)) =>
      match SplitAt(afterQuote, "': ")
      case None => None
      case Some((func, payload)) =>
        match ParseOrigin(originIn, IN_FUNCTION)
        case None => None
        case Some((file, n)) =>
          assert IsSuffix(payload, payload);
          SuffixPrepend(payload, func + "': ", payload);
          SuffixPrepend(payload, originIn + "'", afterQuote);
          Some((file, n, func, payload))
  }

  /** The last `:` of `file:line` is the one before the line. */
  lemma LastColonBeforeLine(file: string, n: nat)
    ensures LastIndexOf(file + ":" + Decimal(n), ':') == Some(|file|)
  {
    DigitsLack(Decimal(n), ':');
    LastBeforeFreeTail(file, ':', Decimal(n));
  }

  lemma FileAndLineRoundTrip(file: string, n: nat)
    ensures ParseFileAndLine(file + ":" + Decimal(n)) == Some((file, n))
  {
    var o := file + ":" + Decimal(n);
    LastColonBeforeLine(file, n);
    assert o[..|file|] == file;
    assert o[|file| + 1..] == Decimal(n);
    DecimalRoundTrip(n);
  }

  lemma ParseOriginRoundTrip(where: Where, sep: string)
    ensures ParseOrigin(OriginText(where) + sep, sep) == Some((ShortFile(where.file), where.line))
  {
    ParseOriginStrips(OriginText(where), sep);
    FileAndLineRoundTrip(ShortFile(where.file), where.line);
  }

  lemma ParseOriginStrips(o: string, sep: string)
    ensures ParseOrigin(o + sep, sep) == ParseFileAndLine(o)
  {
    var s := o + sep;
    assert s[|s| - |sep|..] == sep;
    assert s[..|s| - |sep|] == o;
  }

  /** The file layout, spelled as the parser cuts it. */
  lemma FileLineShape(level: LogLevel, where: Where, payload: string, timestamp: string)
    ensures FileLine(level, where, payload, timestamp)
            == "[" + (Erase(timestamp, '\n') + LEVEL_OPEN
                      + (Label(level) + "] "
                         + (OriginText(where) + IN_FUNCTION + "'" + (where.func + "': " + payload)))) + "\n"
  {
    var rest := OriginText(where) + IN_FUNCTION + "'" + (where.func + "': " + payload);
    FileOriginShape(where, payload);
    FileLineRegroup(Erase(timestamp, '\n'), Label(level), rest);
  }

  lemma FileOriginShape(where: Where, payload: string)
    ensures FileOrigin(where, payload)
            == " " + (OriginText(where) + IN_FUNCTION + "'" + (where.func + "': " + payload))
  {
  }

  lemma FileLineRegroup(ts: string, lbl: string, rest: string)
    ensures "[" + ts + LEVEL_OPEN + (lbl + "]" + ((" " + rest) + "\n"))
            == "[" + (ts + LEVEL_OPEN + (lbl + "] " + rest)) + "\n"
  {
  }

  lemma ParseTailRoundTrip(where: Where, payload: string)
    requires Lacks(where.file, '\'') && Lacks(where.func, '\'')
    ensures ParseTail(OriginText(where) + IN_FUNCTION + "'" + (where.func + "': " + payload))
            == Some((ShortFile(where.file), where.line, where.func, payload))
  {
    OriginLacks(where, '\'');
    ParseOriginRoundTrip(where, IN_FUNCTION);
    ParseTailCuts(OriginText(where), where.func, payload, ShortFile(where.file), where.line);
  }

  /** `ParseTail` cuts at the quotes and hands the origin on, whatever the
      origin is. */
  lemma ParseTailCuts(o: string, func: string, payload: string, file: string, n: nat)
    requires Lacks(o, '\'') && Lacks(func, '\'')
    requires ParseOrigin(o + IN_FUNCTION, IN_FUNCTION) == Some((file, n))
    ensures ParseTail(o + IN_FUNCTION + "'" + (func + "': " + payload)) == Some((file, n, func, payload))
  {
    LacksConcat(o, IN_FUNCTION, '\'');
    SplitAtFirst(o + IN_FUNCTION, "'", func + "': " + payload);
    SplitAtFirst(func, "': ", payload);
  }

  lemma ParseBodyRoundTrip(ts: string, level: LogLevel, rest: string,
                           file: string, n: nat, func: string, payload: string)
    requires Lacks(ts, ']')
    requires ParseTail(rest) == Some((file, n, func, payload))
    ensures ParseBody(ts + LEVEL_OPEN + (Label(level) + "] " + rest))
            == Some(FileFields(ts, level, file, n, func, payload))
  {
    SplitAtFirst(ts, LEVEL_OPEN, Label(level) + "] " + rest);
    SplitAtFirst(Label(level), "] ", rest);
    LabelRoundTrip(level);
  }

  /** Every field of a file record can be read back from its text: the
      timestamp with its line breaks erased, the level, the short file
      name, the line, the function name and the payload. This holds
      whenever the timestamp holds no `]` (true of every `ctime` text) and
      neither the file nor the function name holds a `'`. */
  lemma ParseFileLineRoundTrip(level: LogLevel, where: Where, payload: string, timestamp: string)
    requires Lacks(timestamp, ']') && Lacks(where.file, '\'') && Lacks(where.func, '\'')
    ensures ParseFileLine(FileLine(level, where, payload, timestamp))
            == Some(FileFields(Erase(timestamp, '\n'), level, ShortFile(where.file), where.line,
                               where.func, payload))
  {
    var ts := Erase(timestamp, '\n');
    var rest := OriginText(where) + IN_FUNCTION + "'" + (where.func + "': " + payload);
    var body := ts + LEVEL_OPEN + (Label(level) + "] " + rest);
    var line := FileLine(level, where, payload, timestamp);
    FileLineShape(level, where, payload, timestamp);
    assert line[1..|line| - 1] == body;
    LacksAfterErase(timestamp, '\n', ']');
    ParseTailRoundTrip(where, payload);
    ParseBodyRoundTrip(ts, level, rest, ShortFile(where.file), where.line, where.func, payload);
  }

  /** The fields a console line carries, as read back from its text. */
  datatype ConsoleFields = ConsoleFields(level: LogLevel, file: string, line: nat, func: string, payload: string)

  /** What follows the origin in a console line, up to the quoted name. */
  const CONSOLE_SEP: string := " in function \U{1B}[0m"

  /** What closes every console line. */
  const CONSOLE_END: string := "\U{1B}[0m\n"

  /** Reads a console line back into its fields: the colour up to its
      closing `m`, the bracketed label, then the rest as
      `ParseConsoleTail` reads it. Both colours must be the level's. */
  function ParseConsoleLine(line: string): (r: Option<ConsoleFields>)
    ensures r.Some? ==> |Colour(r.value.level)| <= |line| && line[..|Colour(r.value.level)|] == Colour(r.value.level)
  {
    match SplitAt(line, "m")
    case None => None
    case Some((c0, afterColour)) =>
      match SplitAt(afterColour, "] ")
      case None => None
      case Some((openLbl, afterLbl)) =>
        if |openLbl| == 0 || openLbl[0] != '[' then None
        else
          match LevelOfLabel(openLbl[1..])
          case None => None
          case Some(level) =>
            if c0 + "m" != Colour(level) then None
            else
              match ParseConsoleTail(afterLbl, Colour(level))
              case None => None
              case Some((file, n, func, payload)) =>
                assert line[..|c0 + "m"|] == c0 + "m";
                Some(ConsoleFields(level, file, n, func, payload))
  }

  /** What follows the label of a console line: the origin up to the first
      `'`, the function name up to the next `'`, the colour up to `: `,
      and the payload before the closing reset and line break. */
  function ParseConsoleTail(s: string, colour: string): (r: Option<(string, nat, string, string)>)
    ensures r.Some? ==> IsSuffix(r.value.3 + CONSOLE_END, s)
  {
    match SplitAt(s, "'")
    case None => None
    case Some((originIn, afterQuote)) =>
      match SplitAt(afterQuote, "'")
      case None => None
      case Some((func, afterFunc)) =>
        match SplitAt(afterFunc, ": ")
        case None => None
        case Some((colour2, rest)) =>
          if colour2 != colour || |rest| < |CONSOLE_END| || rest[|rest| - |CONSOLE_END|..] != CONSOLE_END then None
          else
            match ParseOrigin(originIn, CONSOLE_SEP)
            case None => None
            case Some((file, n)) =>
              var payload := rest[..|rest| - |CONSOLE_END|];
              ConsoleTailEnds(originIn, func, colour2, rest);
              Some((file, n, func, payload))
  }

  lemma ConsoleTailEnds(originIn: string, func: string, colour: string, rest: string)
    requires |CONSOLE_END| <= |rest| && rest[|rest| - |CONSOLE_END|..] == CONSOLE_END
    ensures IsSuffix(rest[..|rest| - |CONSOLE_END|] + CONSOLE_END, originIn + "'" + (func + "'" + (colour + ": " + rest)))
  {
    assert rest[..|rest| - |CONSOLE_END|] + CONSOLE_END == rest;
    assert IsSuffix(rest, rest);
    SuffixPrepend(rest, colour + ": ", rest);
    SuffixPrepend(rest, func + "'", colour + ": " + rest);
    SuffixPrepend(rest, originIn + "'", func + "'" + (colour + ": " + rest));
  }

  /** Every colour is an escape sequence closed by its only `m`, and holds
      neither `'` nor `:`. */
  lemma ColourParts(l: LogLevel)
    ensures var c := Colour(l);
            && |c| > 0 && c == c[..|c| - 1] + "m" && Lacks(c[..|c| - 1], 'm')
            && Lacks(c, '\'') && Lacks(c, ':')
  {
  }

  /** The console layout, spelled as the parser cuts it. */
  lemma ConsoleLineShape(level: LogLevel, where: Where, payload: string)
    ensures ConsoleLine(level, where, payload)
            == Colour(level)
               + ("[" + Label(level) + "] "
                  + (OriginText(where) + CONSOLE_SEP + "'"
                     + (where.func + "'" + (Colour(level) + ": " + (payload + CONSOLE_END)))))
  {
    ConsoleLineRegroup(Colour(level), Label(level), OriginText(where), where.func, payload);
  }

  lemma ConsoleLineRegroup(colour: string, lbl: string, o: string, func: string, payload: string)
    ensures colour + ("[" + lbl + "] " + o + " in function " + COLOR_RESET + "'" + func + "'" + colour + ": "
                      + (payload + COLOR_RESET + "\n"))
            == colour + ("[" + lbl + "] " + (o + CONSOLE_SEP + "'" + (func + "'" + (colour + ": " + (payload + CONSOLE_END)))))
  {
  }

  lemma ParseConsoleTailRoundTrip(where: Where, colour: string, payload: string)
    requires Lacks(where.file, '\'') && Lacks(where.func, '\'')
    requires Lacks(colour, '\'') && Lacks(colour, ':')
    ensures ParseConsoleTail(OriginText(where) + CONSOLE_SEP + "'"
                               + (where.func + "'" + (colour + ": " + (payload + CONSOLE_END))), colour)
            == Some((ShortFile(where.file), where.line, where.func, payload))
  {
    OriginLacks(where, '\'');
    ParseOriginRoundTrip(where, CONSOLE_SEP);
    ConsoleTailCuts(OriginText(where), where.func, colour, payload, ShortFile(where.file), where.line);
  }

  /** `ParseConsoleTail` cuts at the quotes and the colour and hands the
      origin on, whatever the origin is. */
  lemma ConsoleTailCuts(o: string, func: string, colour: string, payload: string, file: string, n: nat)
    requires Lacks(o, '\'') && Lacks(func, '\'') && Lacks(colour, '\'') && Lacks(colour, ':')
    requires ParseOrigin(o + CONSOLE_SEP, CONSOLE_SEP) == Some((file, n))
    ensures ParseConsoleTail(o + CONSOLE_SEP + "'" + (func + "'" + (colour + ": " + (payload + CONSOLE_END))), colour)
            == Some((file, n, func, payload))
  {
    var rest := payload + CONSOLE_END;
    LacksConcat(o, CONSOLE_SEP, '\'');
    SplitAtFirst(o + CONSOLE_SEP, "'", func + "'" + (colour + ": " + rest));
    SplitAtFirst(func, "'", colour + ": " + rest);
    SplitAtFirst(colour, ": ", rest);
    assert rest[|rest| - |CONSOLE_END|..] == CONSOLE_END;
    assert rest[..|rest| - |CONSOLE_END|] == payload;
  }

  /** The colour and the label of a console line are read back, and the
      rest is left to `ParseConsoleTail`. */
  lemma ConsoleHeadRoundTrip(level: LogLevel, tail: string)
    ensures ParseConsoleLine(Colour(level) + ("[" + Label(level) + "] " + tail))
            == match ParseConsoleTail(tail, Colour(level))
               case None => None
               case Some((file, n, func, payload)) => Some(ConsoleFields(level, file, n, func, payload))
  {
    var colour := Colour(level);
    var afterColour := "[" + Label(level) + "] " + tail;
    ColourParts(level);
    var c0 := colour[..|colour| - 1];
    assert colour + afterColour == c0 + "m" + afterColour;
    SplitAtFirst(c0, "m", afterColour);
    LacksConcat("[", Label(level), ']');
    SplitAtFirst("[" + Label(level), "] ", tail);
    assert ("[" + Label(level))[1..] == Label(level);
    LabelRoundTrip(level);
  }

  /** Every field of a console record can be read back from its text: the
      level, the short file name, the line, the function name and the
      payload, whenever neither the file nor the function name holds a
      `'`. */
  lemma ParseConsoleLineRoundTrip(level: LogLevel, where: Where, payload: string)
    requires Lacks(where.file, '\'') && Lacks(where.func, '\'')
    ensures ParseConsoleLine(ConsoleLine(level, where, payload))
            == Some(ConsoleFields(level, ShortFile(where.file), where.line, where.func, payload))
  {
    var tail := OriginText(where) + CONSOLE_SEP + "'" + (where.func + "'" + (Colour(level) + ": " + (payload + CONSOLE_END)));
    ConsoleLineShape(level, where, payload);
    ColourParts(level);
    ConsoleHeadRoundTrip(level, tail);
    ParseConsoleTailRoundTrip(where, Colour(level), payload);
  }
}

=== FILE: levels.dfy ===
/** The severity scale of the logger (`LogLevel`), its ordering, the text
    label each level prints as (`toString`) and its ANSI colour
    (`LevelColour`). */
module Levels {
  import opened Text

  /** Declared in this order, so the enum values run 0 (Trace) to 6 (Off).
      `Off` is only ever used as a minimum, to silence everything. */
  datatype LogLevel = Trace | Debug | Info | Warn | Error | Fatal | Off

  /** The underlying enum value. */
  function Rank(l: LogLevel): (n: nat)
    ensures n <= 6
    ensures n == 0 <==> l == Trace
    ensures n == 6 <==> l == Off
  {
    match l
    case Trace => 0
    case Debug => 1
    case Info => 2
    case Warn => 3
    case Error => 4
    case Fatal => 5
    case Off => 6
  }

  /** The level comparison `a < b` of the enum class. */
  predicate Below(a: LogLevel, b: LogLevel) {
    Rank(a) < Rank(b)
  }

  lemma RankInjective(a: LogLevel, b: LogLevel)
    ensures Rank(a) == Rank(b) <==> a == b
  {
  }

  /** `Below` is a strict total order with `Trace` at the bottom and `Off`
      at the top. */
  lemma BelowIsStrictTotalOrder(a: LogLevel, b: LogLevel, c: LogLevel)
    ensures !Below(a, a)
    ensures Below(a, b) ==> !Below(b, a)
    ensures Below(a, b) && Below(b, c) ==> Below(a, c)
    ensures a != b ==> Below(a, b) || Below(b, a)
    ensures a != Trace ==> Below(Trace, a)
    ensures a != Off ==> Below(a, Off)
  {
  }

  /** The levels rise in the order they are declared, each one directly
      above the one before it: nothing lies between two neighbours. */
  lemma LevelsAscend(c: LogLevel)
    ensures Below(Trace, Debug) && Below(Debug, Info) && Below(Info, Warn)
            && Below(Warn, Error) && Below(Error, Fatal) && Below(Fatal, Off)
    ensures !(Below(Trace, c) && Below(c, Debug)) && !(Below(Debug, c) && Below(c, Info))
            && !(Below(Info, c) && Below(c, Warn)) && !(Below(Warn, c) && Below(c, Error))
            && !(Below(Error, c) && Below(c, Fatal)) && !(Below(Fatal, c) && Below(c, Off))
  {
  }

  const ESC: char := '\U{1B}'

  const COLOR_GREY: string := "\U{1B}[90m"
  const COLOR_BLUE: string := "\U{1B}[34m"
  const COLOR_GREEN: string := "\U{1B}[32m"
  const COLOR_YELLOW: string := "\U{1B}[33m"
  const COLOR_RED: string := "\U{1B}[31m"
  const COLOR_FATAL: string := "\U{1B}[41;97m"
  const COLOR_RESET: string := "\U{1B}[0m"

  /** `toString`: the upper-case name of a level; `Off` prints as nothing. */
  function Label(l: LogLevel): (s: string)
    ensures s == "" <==> l == Off
    ensures Lacks(s, ']') && Lacks(s, ESC) && Lacks(s, '\n')
  {
    match l
    case Trace => "TRACE"
    case Debug => "DEBUG"
    case Info => "INFO"
    case Warn => "WARN"
    case Error => "ERROR"
    case Fatal => "FATAL"
    case Off => ""
  }

  /** Reads a label back: the inverse of `Label`. */
  function LevelOfLabel(s: string): Option<LogLevel> {
    if s == "TRACE" then Some(Trace)
    else if s == "DEBUG" then Some(Debug)
    else if s == "INFO" then Some(Info)
    else if s == "WARN" then Some(Warn)
    else if s == "ERROR" then Some(Error)
    else if s == "FATAL" then Some(Fatal)
    else if s == "" then Some(Off)
    else None
  }

  lemma LabelRoundTrip(l: LogLevel)
    ensures LevelOfLabel(Label(l)) == Some(l)
  {
  }

  /** No two levels print the same label. */
  lemma LabelInjective(a: LogLevel, b: LogLevel)
    requires Label(a) == Label(b)
    ensures a == b
  {
    LabelRoundTrip(a);
    LabelRoundTrip(b);
  }

  /** `LevelColour`: each emitted level has its own escape sequence; the
      `default` branch, reached only by `Off`, gives the reset sequence. */
  function Colour(l: LogLevel): (s: string)
    ensures |s| > 0 && s[0] == ESC
    ensures s == COLOR_RESET <==> l == Off
  {
    match l
    case Trace => COLOR_GREY
    case Debug => COLOR_BLUE
    case Info => COLOR_GREEN
    case Warn => COLOR_YELLOW
    case Error => COLOR_RED
    case Fatal => COLOR_FATAL
    case _ => COLOR_RESET
  }

  /** Reads a colour back: the inverse of `Colour`. The reset sequence
      reads back as `Off`, the only level it belongs to. */
  function LevelOfColour(s: string): Option<LogLevel> {
    if s == COLOR_GREY then Some(Trace)
    else if s == COLOR_BLUE then Some(Debug)
    else if s == COLOR_GREEN then Some(Info)
    else if s == COLOR_YELLOW then Some(Warn)
    else if s == COLOR_RED then Some(Error)
    else if s == COLOR_FATAL then Some(Fatal)
    else if s == COLOR_RESET then Some(Off)
    else None
  }

  /** Every level's colour reads back as that level: grey for Trace, blue
      for Debug, green for Info, yellow for Warn, red for Error, white on
      red for Fatal, and the reset sequence for Off. */
  lemma ColourRoundTrip(l: LogLevel)
    ensures LevelOfColour(Colour(l)) == Some(l)
  {
  }

  /** The colour alone tells the level of an emitted record. */
  lemma ColourInjective(a: LogLevel, b: LogLevel)
    requires Colour(a) == Colour(b)
    ensures a == b
  {
  }
}

=== FILE: logging.dfy ===
/** The logger itself: a state holding the minimum level, the log file path,
    whether file logging is on, whether the file handle is open, the FIFO
    queue of pending records, and what has been written so far to the
    console and to the file. Producers (`Log`, `LogToFile`,
    `EnableFileLogging`) push at the back of the queue; the worker pops at
    the front; the destructor drains what is left.

    The worker thread, its mutex and condition variable are replaced by
    `WorkerStep`, one "pop one record and write it" step that a caller may
    interleave with producer calls in any order (`Run`). What the operating
    system decides (whether an `open` succeeds, the clock, the `{}`
    substitution, the call site the compiler records) arrives as
    parameters. */
module Logging {
  import opened Levels
  import opened Format

  /** One queued record: its level, call site, fully rendered text and
      destination. */
  datatype LogMessage = LogMessage(level: LogLevel, where: Where, message: string, toFile: bool)

  datatype Logger = Logger(
    level: LogLevel,
    logPath: string,
    logToFile: bool,
    fileOpen: bool,
    queue: seq<LogMessage>,
    console: seq<string>,
    file: seq<string>)

  const DEFAULT_PATH: string := "./log.txt"
  const OPEN_FAILED: string := "Failed to open file"
  const NOT_ENABLED: string := "cannot log to file if it was not previously enabled"

  /** A freshly constructed logger: everything passes the level gate, file
      logging is off, nothing is queued or written. */
  function New(): (r: Logger)
    ensures forall l: LogLevel :: Admits(r, l)
    ensures r.logPath == DEFAULT_PATH
    ensures !r.logToFile && !r.fileOpen && Synced(r)
    ensures r.queue == [] && r.console == [] && r.file == []
  {
    Logger(Trace, DEFAULT_PATH, false, false, [], [], [])
  }

  /** The file sink takes records only when file logging is on AND the
      handle is open. */
  predicate Live(s: Logger) {
    s.logToFile && s.fileOpen
  }

  /** Whether a record goes to the file when the sink is `live`. */
  predicate Routes(m: LogMessage, live: bool) {
    m.toFile && live
  }

  /** `Log`'s gate: a record passes unless its level is below the minimum. */
  predicate Admits(s: Logger, level: LogLevel) {
    !Below(level, s.level)
  }

  /** Outside shutdown the flag and the handle agree: every operation that
      changes one sets the other to the same value. */
  predicate Synced(s: Logger) {
    s.logToFile == s.fileOpen
  }

  function SetLevel(s: Logger, level: LogLevel): (r: Logger)
    ensures r.level == level
    ensures r.(level := s.level) == s
  {
    s.(level := level)
  }

  /** Only the stored path changes. An open file stays the file written to
      until file logging is disabled and then enabled again: enabling while
      the file is open keeps the stream already open. */
  function SetLogfilePath(s: Logger, path: string): (r: Logger)
    ensures r.logPath == path
    ensures r.(logPath := s.logPath) == s
  {
    s.(logPath := path)
  }

  /** `pushToQ`: the record joins the back of the queue. */
  function PushToQ(s: Logger, m: LogMessage): (r: Logger)
    ensures |r.queue| == |s.queue| + 1
    ensures r.queue[..|s.queue|] == s.queue && r.queue[|s.queue|] == m
    ensures r.(queue := s.queue) == s
  {
    s.(queue := s.queue + [m])
  }

  /** `Log`: below the minimum level nothing happens; otherwise exactly one
      console record, rendered in the console layout, joins the queue. */
  function Log(s: Logger, level: LogLevel, where: Where, payload: string): (r: Logger)
    ensures |r.queue| == |s.queue| + 1 <==> Admits(s, level)
    ensures !Admits(s, level) ==> r == s
    ensures |r.queue| >= |s.queue| && r.queue[..|s.queue|] == s.queue
    ensures Admits(s, level) ==>
              r.queue[|s.queue|] == LogMessage(level, where, ConsoleLine(level, where, payload), false)
    ensures r.(queue := s.queue) == s
  {
    if Below(level, s.level) then
      s
    else
      PushToQ(s, LogMessage(level, where, Render(level, where, payload, false, ""), false))
  }

  /** Whatever `Log` adds is a console record. */
  lemma LogAddsNoFileRecord(s: Logger, level: LogLevel, where: Where, payload: string)
    ensures var r := Log(s, level, where, payload);
            forall i :: |s.queue| <= i < |r.queue| ==> !r.queue[i].toFile
  {
    if !Below(level, s.level) {
      var m := LogMessage(level, where, Render(level, where, payload, false, ""), false);
      assert Log(s, level, where, payload).queue == s.queue + [m];
    }
  }

  /** `LogToFile`: with file logging on, exactly one file record joins the
      queue whatever the minimum level; with it off, the only effect is the
      Warn record `Log` makes of the misuse (itself subject to the gate),
      reported from the call site `site` inside the logger. */
  function LogToFile(s: Logger, level: LogLevel, where: Where, payload: string, timestamp: string, site: Where): (r: Logger)
    ensures s.logToFile ==>
              r.queue == s.queue + [LogMessage(level, where, FileLine(level, where, payload, timestamp), true)]
    ensures !s.logToFile ==> r == Log(s, Warn, site, NOT_ENABLED)
    ensures !s.logToFile ==> forall i :: |s.queue| <= i < |r.queue| ==> !r.queue[i].toFile
    ensures r.(queue := s.queue) == s
  {
    if !s.logToFile then
      LogAddsNoFileRecord(s, Warn, site, NOT_ENABLED);
      Log(s, Warn, site, NOT_ENABLED)
    else
      PushToQ(s, LogMessage(level, where, Render(level, where, payload, true, timestamp), true))
  }

  /** `EnableFileLogging`. Enabling opens the stored path; `openOk` says
      whether that open succeeds. Opening a stream that is already open
      fails but leaves it open, so the handle is open afterwards exactly
      when it was before or the open succeeded. If it is not, an Error
      record goes through `Log` and file logging stays off. Disabling
      closes the handle. Either way flag and handle end up agreeing. */
  function EnableFileLogging(s: Logger, enable: bool, openOk: bool, site: Where): (r: Logger)
    ensures r.logToFile <==> enable && (s.fileOpen || openOk)
    ensures Synced(r)
    ensures enable && !s.fileOpen && !openOk ==>
              r.queue == Log(s, Error, site, OPEN_FAILED).queue
    ensures !(enable && !s.fileOpen && !openOk) ==> r.queue == s.queue
    ensures r.(logToFile := s.logToFile, fileOpen := s.fileOpen, queue := s.queue) == s
  {
    if enable then
      var isOpen := s.fileOpen || openOk;
      if !isOpen then
        Log(s, Error, site, OPEN_FAILED).(logToFile := false)
      else
        s.(fileOpen := true, logToFile := true)
    else
      s.(fileOpen := false, logToFile := false)
  }

  /** The texts of a queue's records, in queue order. */
  function Messages(q: seq<LogMessage>): (r: seq<string>)
    ensures |r| == |q|
    decreases |q|
  {
    if |q| == 0 then [] else [q[0].message] + Messages(q[1..])
  }

  /** Position `i` of the texts is the text of record `i`. */
  lemma {:induction false} MessagesAt(q: seq<LogMessage>, i: nat)
    requires i < |q|
    ensures Messages(q)[i] == q[i].message
    decreases i
  {
    if i > 0 {
      MessagesAt(q[1..], i - 1);
    }
  }

  lemma MessagesConcat(a: seq<LogMessage>, b: seq<LogMessage>)
    ensures Messages(a + b) == Messages(a) + Messages(b)
  {
    forall i | 0 <= i < |a + b| ensures Messages(a + b)[i] == (Messages(a) + Messages(b))[i] {
      MessagesAt(a + b, i);
      if i < |a| {
        MessagesAt(a, i);
      } else {
        MessagesAt(b, i - |a|);
      }
    }
  }

  /** The worker's loop body: pop the front record; write it to the file
      if it is a file record and the sink is live; print it to the console
      in every case, file records included. An empty queue leaves the
      worker waiting, which changes nothing. */
  function WorkerStep(s: Logger): (r: Logger)
    ensures |s.queue| == 0 ==> r == s
    ensures |s.queue| > 0 ==> r.queue == s.queue[1..]
    ensures |s.queue| > 0 ==> r.console == s.console + [s.queue[0].message]
    ensures |s.queue| > 0 ==>
              r.file == s.file + (if Routes(s.queue[0], Live(s)) then [s.queue[0].message] else [])
    ensures r.(queue := s.queue, console := s.console, file := s.file) == s
  {
    if |s.queue| == 0 then
      s
    else
      var m := s.queue[0];
      var t := s.(queue := s.queue[1..]);
      var t' := if m.toFile && s.logToFile && s.fileOpen then t.(file := t.file + [m.message]) else t;
      t'.(console := t'.console + [m.message])
  }

  /** `k` turns of the worker with no producer in between. */
  function WorkerSteps(s: Logger, k: nat): Logger
    decreases k
  {
    if k == 0 then s else WorkerSteps(WorkerStep(s), k - 1)
  }

  /** The texts the destructor writes to the file (`toFileSink`) or to the
      console (`!toFileSink`) for the records of `q`, in queue order. */
  function Share(q: seq<LogMessage>, live: bool, toFileSink: bool): seq<string>
    decreases |q|
  {
    if |q| == 0 then []
    else (if Routes(q[0], live) == toFileSink then [q[0].message] else []) + Share(q[1..], live, toFileSink)
  }

  /** The two shares split the queue: every record's text lands in exactly
      one of them. */
  lemma {:induction false} SharePartition(q: seq<LogMessage>, live: bool)
    ensures multiset(Share(q, live, true)) + multiset(Share(q, live, false)) == multiset(Messages(q))
    decreases |q|
  {
    if |q| > 0 {
      SharePartition(q[1..], live);
      assert Messages(q) == [q[0].message] + Messages(q[1..]);
    }
  }

  lemma {:induction false} ShareLengths(q: seq<LogMessage>, live: bool)
    ensures |Share(q, live, true)| + |Share(q, live, false)| == |q|
    decreases |q|
  {
    if |q| > 0 {
      ShareLengths(q[1..], live);
    }
  }

  /** With the sink not live, everything goes to the console. */
  lemma {:induction false} ShareNotLive(q: seq<LogMessage>)
    ensures Share(q, false, true) == []
    ensures Share(q, false, false) == Messages(q)
    decreases |q|
  {
    if |q| > 0 {
      ShareNotLive(q[1..]);
    }
  }

  /** The destructor's loop: pop each residual record and write it to the
      file if it is a file record and the sink is live, and otherwise to
      the console; never to both. */
  function Drain(s: Logger): (r: Logger)
    ensures r.queue == []
    ensures r.console == s.console + Share(s.queue, Live(s), false)
    ensures r.file == s.file + Share(s.queue, Live(s), true)
    ensures r.level == s.level && r.logPath == s.logPath
    ensures r.logToFile == s.logToFile && r.fileOpen == s.fileOpen
    decreases |s.queue|
  {
    if |s.queue| == 0 then
      s
    else
      var m := s.queue[0];
      var toFile := m.toFile && s.logToFile && s.fileOpen;
      var t := s.(queue := s.queue[1..],
                  console := if toFile then s.console else s.console + [m.message],
                  file := if toFile then s.file + [m.message] else s.file);
      var r := Drain(t);
      DrainStep(s, t, r.console, r.file);
      r
  }

  /** One turn of the destructor's loop, in terms of what the rest of the
      drain writes. */
  lemma DrainStep(s: Logger, t: Logger, console: seq<string>, file: seq<string>)
    requires |s.queue| > 0
    requires var toFile := s.queue[0].toFile && s.logToFile && s.fileOpen;
             t == s.(queue := s.queue[1..],
                     console := if toFile then s.console else s.console + [s.queue[0].message],
                     file := if toFile then s.file + [s.queue[0].message] else s.file)
    requires console == t.console + Share(t.queue, Live(t), false)
    requires file == t.file + Share(t.queue, Live(t), true)
    ensures console == s.console + Share(s.queue, Live(s), false)
    ensures file == s.file + Share(s.queue, Live(s), true)
  {
  }

  /** `~Logger` once the worker has stopped: drain the queue, then close the
      file. Each residual record is written exactly once, to one sink. */
  function Shutdown(s: Logger): (r: Logger)
    ensures r.queue == [] && !r.fileOpen
    ensures |r.console| + |r.file| == |s.console| + |s.file| + |s.queue|
    ensures |r.console| >= |s.console| && r.console[..|s.console|] == s.console
    ensures |r.file| >= |s.file| && r.file[..|s.file|] == s.file
    ensures multiset(r.console[|s.console|..]) + multiset(r.file[|s.file|..]) == multiset(Messages(s.queue))
    ensures r.level == s.level && r.logPath == s.logPath && r.logToFile == s.logToFile
  {
    var d := Drain(s);
    SharePartition(s.queue, Live(s));
    assert d.console[|s.console|..] == Share(s.queue, Live(s), false);
    assert d.file[|s.file|..] == Share(s.queue, Live(s), true);
    ShareLengths(s.queue, Live(s));
    d.(fileOpen := false)
  }

  /** One call a thread may make on the logger, or one turn of the worker. */
  datatype Op =
    | SetLevelOp(level: LogLevel)
    | SetPathOp(path: string)
    | EnableOp(enable: bool, openOk: bool, site: Where)
    | LogOp(level: LogLevel, where: Where, payload: string)
    | LogToFileOp(level: LogLevel, where: Where, payload: string, timestamp: string, site: Where)
    | Work

  /** Producers only ever add at the back of the queue and never write;
      every operation keeps the flag and the handle in agreement. */
  function Apply(s: Logger, op: Op): (r: Logger)
    ensures !op.Work? ==> |r.queue| >= |s.queue| && r.queue[..|s.queue|] == s.queue
    ensures !op.Work? ==> r.console == s.console && r.file == s.file
    ensures Synced(s) ==> Synced(r)
  {
    match op
    case SetLevelOp(level) => SetLevel(s, level)
    case SetPathOp(path) => SetLogfilePath(s, path)
    case EnableOp(enable, openOk, site) => EnableFileLogging(s, enable, openOk, site)
    case LogOp(level, where, payload) => Log(s, level, where, payload)
    case LogToFileOp(level, where, payload, timestamp, site) => LogToFile(s, level, where, payload, timestamp, site)
    case Work => WorkerStep(s)
  }

  /** Any interleaving of calls and worker turns, in the order given. */
  function Run(s: Logger, ops: seq<Op>): Logger
    decreases |ops|
  {
    if |ops| == 0 then s else Run(Apply(s, ops[0]), ops[1..])
  }

  /** The records the producer calls among `ops` enqueue, in enqueue order. */
  function Produced(s: Logger, ops: seq<Op>): seq<LogMessage>
    decreases |ops|
  {
    if |ops| == 0 then []
    else
      var t := Apply(s, ops[0]);
      (if ops[0].Work? then [] else t.queue[|s.queue|..]) + Produced(t, ops[1..])
  }
}

=== FILE: properties.dfy ===
/** What the logger promises its callers, stated over the model: the level
    gate, the two ways a file record can fail to be made, the file sink
    switching on and off, FIFO writing by the worker, and a shutdown that
    drops nothing. */
module LoggingProperties {
  import opened Levels
  import opened Format
  import opened Logging

  /** For a minimum `m` set by `SetLevel`, a `Log` below `m` leaves the
      logger as it was and one at or above `m` enqueues one record. */
  lemma LevelGate(s: Logger, m: LogLevel, level: LogLevel, where: Where, payload: string)
    ensures var t := SetLevel(s, m);
            var r := Log(t, level, where, payload);
            (Below(level, m) ==> r == t) && (!Below(level, m) ==> |r.queue| == |t.queue| + 1)
  {
  }

  /** With the minimum at `Off` no level from Trace to Fatal gets through. */
  lemma OffSilencesEveryLevel(s: Logger, level: LogLevel, where: Where, payload: string)
    requires s.level == Off && level != Off
    ensures Log(s, level, where, payload) == s
  {
    BelowIsStrictTotalOrder(level, Off, Off);
  }

  /** The default minimum is Trace, so a new logger lets every level in. */
  lemma NewLoggerAdmitsEveryLevel(level: LogLevel, where: Where, payload: string)
    ensures Log(New(), level, where, payload).queue
            == [LogMessage(level, where, ConsoleLine(level, where, payload), false)]
  {
  }

  /** With file logging on, `LogToFile` enqueues its file record whatever
      the minimum level is, `Off` included. */
  lemma FileRecordsBypassTheGate(s: Logger, m: LogLevel, level: LogLevel, where: Where,
                                 payload: string, timestamp: string, site: Where)
    requires s.logToFile
    ensures var r := LogToFile(SetLevel(s, m), level, where, payload, timestamp, site);
            |r.queue| == |s.queue| + 1 && r.queue[|s.queue|].toFile && r.queue[|s.queue|].level == level
  {
  }

  /** `LogToFile` on a new logger makes one Warn console record and no file
      record, and nothing is ever written to the file for it. */
  lemma FileLogBeforeEnable(level: LogLevel, where: Where, payload: string, timestamp: string,
                            site: Where, k: nat)
    ensures var r := LogToFile(New(), level, where, payload, timestamp, site);
            && r.queue == [LogMessage(Warn, site, ConsoleLine(Warn, site, NOT_ENABLED), false)]
            && Shutdown(WorkerSteps(r, k)).file == []
  {
    var r := LogToFile(New(), level, where, payload, timestamp, site);
    WorkerStepsKeepState(r, k);
    var w := WorkerSteps(r, k);
    ShareNotLive(w.queue);
    WorkerNeverWritesFileWhenNotLive(r, k);
  }

  /** Worker turns leave everything but the queue and the two outputs as
      they were. */
  lemma {:induction false} WorkerStepsKeepState(s: Logger, k: nat)
    ensures var r := WorkerSteps(s, k);
            r.level == s.level && r.logPath == s.logPath && r.logToFile == s.logToFile && r.fileOpen == s.fileOpen
    decreases k
  {
    if k > 0 {
      WorkerStepsKeepState(WorkerStep(s), k - 1);
    }
  }

  lemma {:induction false} WorkerNeverWritesFileWhenNotLive(s: Logger, k: nat)
    requires !Live(s)
    ensures WorkerSteps(s, k).file == s.file
    decreases k
  {
    if k > 0 {
      WorkerNeverWritesFileWhenNotLive(WorkerStep(s), k - 1);
    }
  }

  /** An `EnableFileLogging(true)` whose open fails on a new logger leaves
      file logging off and enqueues one Error record (Error, not Warn); a
      `LogToFile` after it then behaves as before any enabling. */
  lemma FailedEnable(site: Where, level: LogLevel, where: Where, payload: string, timestamp: string, site2: Where)
    ensures var s := EnableFileLogging(New(), true, false, site);
            && !s.logToFile && !s.fileOpen
            && s.queue == [LogMessage(Error, site, ConsoleLine(Error, site, OPEN_FAILED), false)]
            && LogToFile(s, level, where, payload, timestamp, site2).queue
               == s.queue + [LogMessage(Warn, site2, ConsoleLine(Warn, site2, NOT_ENABLED), false)]
  {
  }

  /** A successful open turns file logging on and enqueues nothing. */
  lemma SuccessfulEnable(s: Logger, site: Where)
    ensures var r := EnableFileLogging(s, true, true, site);
            r.logToFile && r.fileOpen && r.queue == s.queue
  {
  }

  /** Disabling is idempotent. */
  lemma DisableIdempotent(s: Logger, ok1: bool, ok2: bool, site1: Where, site2: Where)
    ensures var once := EnableFileLogging(s, false, ok1, site1);
            EnableFileLogging(once, false, ok2, site2) == once
  {
  }

  /** `SetLogfilePath` changes only the path; a new logger's path is
      `./log.txt`. */
  lemma PathOnlyChangesPath(s: Logger, path: string)
    ensures New().logPath == "./log.txt"
    ensures SetLogfilePath(s, path).(logPath := s.logPath) == s
  {
  }

  /** The flag and the handle agree in every state reachable from a new
      logger, so in the worker "file logging on" already means "open". */
  lemma {:induction false} RunKeepsSynced(s: Logger, ops: seq<Op>)
    requires Synced(s)
    ensures Synced(Run(s, ops))
    decreases |ops|
  {
    if |ops| > 0 {
      RunKeepsSynced(Apply(s, ops[0]), ops[1..]);
    }
  }

  /** `k` uninterrupted worker turns print the first `k` queued records to
      the console in queue order, write the live file records among them
      to the file in the same order, and leave the rest queued. */
  lemma WorkerFifo(s: Logger, k: nat)
    requires k <= |s.queue|
    ensures var r := WorkerSteps(s, k);
            && r.queue == s.queue[k..]
            && r.console == s.console + Messages(s.queue[..k])
            && r.file == s.file + Share(s.queue[..k], Live(s), true)
            && Live(r) == Live(s)
  {
    WorkerStepsKeepState(s, k);
    WorkerPopsInOrder(s, k);
    WorkerPrintsInOrder(s, k);
    WorkerFilesInOrder(s, k);
  }

  lemma {:induction false} WorkerPopsInOrder(s: Logger, k: nat)
    requires k <= |s.queue|
    ensures WorkerSteps(s, k).queue == s.queue[k..]
    decreases k
  {
    if k > 0 {
      var t := WorkerStep(s);
      WorkerPopsInOrder(t, k - 1);
      assert t.queue[k - 1..] == s.queue[k..];
    }
  }

  lemma {:induction false} WorkerPrintsInOrder(s: Logger, k: nat)
    requires k <= |s.queue|
    ensures WorkerSteps(s, k).console == s.console + Messages(s.queue[..k])
    decreases k
  {
    if k == 0 {
      assert s.queue[..0] == [];
    } else {
      var q := s.queue;
      var t := WorkerStep(s);
      assert WorkerSteps(s, k) == WorkerSteps(t, k - 1);
      assert t.console == s.console + [q[0].message];
      WorkerPrintsInOrder(t, k - 1);
      assert t.queue[..k - 1] == q[1..k];
      WorkerPopsFront(q, k, Live(s));
      assert Messages(q[..k]) == [q[0].message] + Messages(q[1..k]);
    }
  }

  lemma {:induction false} WorkerFilesInOrder(s: Logger, k: nat)
    requires k <= |s.queue|
    ensures WorkerSteps(s, k).file == s.file + Share(s.queue[..k], Live(s), true)
    decreases k
  {
    if k == 0 {
      assert s.queue[..0] == [];
    } else {
      var q := s.queue;
      var t := WorkerStep(s);
      assert Live(t) == Live(s);
      WorkerFilesInOrder(t, k - 1);
      assert t.queue[..k - 1] == q[1..k];
      WorkerPopsFront(q, k, Live(s));
    }
  }

  /** The front record followed by the next `k - 1` are the first `k`. */
  lemma WorkerPopsFront(q: seq<LogMessage>, k: nat, live: bool)
    requires 0 < k <= |q|
    ensures Messages(q[..k]) == [q[0].message] + Messages(q[1..k])
    ensures Share(q[..k], live, true)
            == (if Routes(q[0], live) then [q[0].message] else []) + Share(q[1..k], live, true)
  {
    assert q[..k][0] == q[0];
    assert q[..k][1..] == q[1..k];
  }

  /** Write order is enqueue order: three `Log` calls on an idle logger
      followed by three worker turns print the three records in call order. */
  lemma WriteOrderIsCallOrder(s: Logger, a: string, b: string, c: string, where: Where)
    requires s.queue == [] && s.level == Trace
    ensures var r := Log(Log(Log(s, Info, where, a), Info, where, b), Info, where, c);
            WorkerSteps(r, 3).console
            == s.console + [ConsoleLine(Info, where, a), ConsoleLine(Info, where, b), ConsoleLine(Info, where, c)]
  {
    var r := Log(Log(Log(s, Info, where, a), Info, where, b), Info, where, c);
    ThreeLogsQueued(s, a, b, c, where);
    WorkerPrintsInOrder(r, 3);
    assert r.queue[..3] == r.queue;
    MessagesOfThree(r.queue);
  }

  /** The queue after three admitted `Log` calls on an idle logger. */
  lemma ThreeLogsQueued(s: Logger, a: string, b: string, c: string, where: Where)
    requires s.queue == [] && s.level == Trace
    ensures var r := Log(Log(Log(s, Info, where, a), Info, where, b), Info, where, c);
            && r.console == s.console
            && r.queue == [LogMessage(Info, where, ConsoleLine(Info, where, a), false),
                           LogMessage(Info, where, ConsoleLine(Info, where, b), false),
                           LogMessage(Info, where, ConsoleLine(Info, where, c), false)]
  {
    var r2 := Log(Log(s, Info, where, a), Info, where, b);
    TwoLogsQueued(s, a, b, where);
    LogQueues(r2, Info, where, c);
  }

  /** The queue after two admitted `Log` calls on an idle logger. */
  lemma TwoLogsQueued(s: Logger, a: string, b: string, where: Where)
    requires s.queue == [] && s.level == Trace
    ensures var r := Log(Log(s, Info, where, a), Info, where, b);
            && r.console == s.console && r.level == Trace
            && r.queue == [LogMessage(Info, where, ConsoleLine(Info, where, a), false),
                           LogMessage(Info, where, ConsoleLine(Info, where, b), false)]
  {
    var r1 := Log(s, Info, where, a);
    LogQueues(s, Info, where, a);
    LogQueues(r1, Info, where, b);
  }

  /** An admitted `Log` call adds its console record and nothing else. */
  lemma LogQueues(s: Logger, level: LogLevel, where: Where, payload: string)
    requires Admits(s, level)
    ensures var r := Log(s, level, where, payload);
            && r.queue == s.queue + [LogMessage(level, where, ConsoleLine(level, where, payload), false)]
            && r.console == s.console && r.level == s.level
  {
  }

  lemma MessagesOfThree(q: seq<LogMessage>)
    requires |q| == 3
    ensures Messages(q) == [q[0].message, q[1].message, q[2].message]
  {
    MessagesAt(q, 0);
    MessagesAt(q, 1);
    MessagesAt(q, 2);
  }

  /** Under any interleaving of producer calls and worker turns, what the
      console has printed followed by what is still queued is what it had
      printed and queued before followed by every record produced meanwhile,
      in production order: no record is lost, duplicated or reordered. */
  lemma {:induction false} RunConservesRecords(s: Logger, ops: seq<Op>)
    ensures var r := Run(s, ops);
            s.console + Messages(s.queue + Produced(s, ops)) == r.console + Messages(r.queue)
    decreases |ops|
  {
    if |ops| == 0 {
      assert s.queue + Produced(s, ops) == s.queue;
    } else {
      var t := Apply(s, ops[0]);
      var p := Produced(t, ops[1..]);
      assert Run(s, ops) == Run(t, ops[1..]);
      RunConservesRecords(t, ops[1..]);
      if ops[0].Work? {
        assert t == WorkerStep(s);
        assert Produced(s, ops) == p;
        WorkConserves(s, p);
        assert s.console + Messages(s.queue + Produced(s, ops)) == t.console + Messages(t.queue + p);
      } else {
        assert Produced(s, ops) == t.queue[|s.queue|..] + p;
        ProducerConserves(s, t, p);
        assert s.console + Messages(s.queue + Produced(s, ops)) == t.console + Messages(t.queue + p);
      }
    }
  }

  /** A worker turn moves the front record from the queue to the console. */
  lemma WorkConserves(s: Logger, p: seq<LogMessage>)
    ensures s.console + Messages(s.queue + p) == WorkerStep(s).console + Messages(WorkerStep(s).queue + p)
  {
    if |s.queue| > 0 {
      var t := WorkerStep(s);
      var x := s.queue + p;
      assert x[0] == s.queue[0];
      assert x[1..] == t.queue + p;
      assert Messages(x) == [s.queue[0].message] + Messages(t.queue + p);
    }
  }

  /** A producer call only appends to the queue. */
  lemma ProducerConserves(s: Logger, t: Logger, p: seq<LogMessage>)
    requires |t.queue| >= |s.queue| && t.queue[..|s.queue|] == s.queue && t.console == s.console
    ensures s.console + Messages(s.queue + (t.queue[|s.queue|..] + p)) == t.console + Messages(t.queue + p)
  {
    assert s.queue + (t.queue[|s.queue|..] + p) == t.queue + p;
  }

  /** However far the worker got before shutdown, every record queued at
      that point is written by the time the logger is gone: counted with
      multiplicity, everything written before plus everything queued is
      among what has been written at the end. */
  lemma ShutdownLosesNothing(s: Logger, k: nat)
    requires k <= |s.queue|
    ensures var r := Shutdown(WorkerSteps(s, k));
            multiset(s.console) + multiset(s.file) + multiset(Messages(s.queue))
            <= multiset(r.console) + multiset(r.file)
  {
    var q := s.queue;
    var w := WorkerSteps(s, k);
    var r := Shutdown(w);
    var printed := Messages(q[..k]);
    var filed := Share(q[..k], Live(s), true);
    assert multiset(Messages(q)) == multiset(printed) + multiset(Messages(q[k..])) by {
      assert q == q[..k] + q[k..];
      MessagesConcat(q[..k], q[k..]);
    }
    assert multiset(r.console[|w.console|..]) + multiset(r.file[|w.file|..]) == multiset(Messages(q[k..])) by {
      WorkerFifo(s, k);
    }
    assert r.console == s.console + printed + r.console[|w.console|..] by {
      WorkerFifo(s, k);
      assert r.console == w.console + r.console[|w.console|..];
    }
    assert r.file == s.file + filed + r.file[|w.file|..] by {
      WorkerFifo(s, k);
      assert r.file == w.file + r.file[|w.file|..];
    }
    CoveredByParts(Messages(q), printed, Messages(q[k..]), filed,
                   r.console[|w.console|..], r.file[|w.file|..], s.console, s.file);
  }

  /** Multiset bookkeeping for the lemma above. */
  lemma CoveredByParts(all: seq<string>, printed: seq<string>, rest: seq<string>, filed: seq<string>,
                       restPrinted: seq<string>, restFiled: seq<string>,
                       before: seq<string>, beforeFile: seq<string>)
    requires multiset(all) == multiset(printed) + multiset(rest)
    requires multiset(restPrinted) + multiset(restFiled) == multiset(rest)
    ensures multiset(before) + multiset(beforeFile) + multiset(all)
            <= multiset(before + printed + restPrinted) + multiset(beforeFile + filed + restFiled)
  {
  }

  /** With the file sink not live at shutdown, every residual record,
      file records included, is printed to the console in queue order. */
  lemma ShutdownWithoutFileSink(s: Logger)
    requires !Live(s)
    ensures Shutdown(s).console == s.console + Messages(s.queue)
    ensures Shutdown(s).file == s.file
  {
    ShareNotLive(s.queue);
  }
}

=== FILE: stream.dfy ===
/** The part of `std::fstream` that `EnableFileLogging` and the writes of
    the worker and the destructor depend on: whether the stream is open and
    whether its error state is clear. Opening a stream that is already open
    fails and sets `failbit` but leaves it open; a stream whose error state
    is set performs no output. */
module FileStream {
  import opened Levels
  import opened Format
  import opened Logging

  datatype Stream = Stream(isOpen: bool, good: bool)

  /** `open(path, out | app)`, where `ok` says whether the operating system
      would let the path be opened. */
  function Open(f: Stream, ok: bool): (r: Stream)
    ensures f.isOpen ==> r.isOpen && !r.good
    ensures !f.isOpen ==> r.isOpen == ok && r.good == ok
  {
    if f.isOpen then f.(good := false)
    else if ok then Stream(true, true)
    else Stream(false, false)
  }

  /** `_logFile << text`: written only while the stream is open and good. */
  function Write(f: Stream, out: seq<string>, text: string): (r: seq<string>)
    ensures r == out + [text] <==> f.isOpen && f.good
    ensures r == out || r == out + [text]
  {
    if f.isOpen && f.good then out + [text] else out
  }

  /** `EnableFileLogging` as written, over the stream: returns the stream and
      the new value of `_logToFile`. */
  function EnableAsWritten(f: Stream, enable: bool, ok: bool): (r: (Stream, bool))
    ensures r.1 <==> r.0.isOpen && enable
  {
    if enable then
      var g := Open(f, ok);
      if !g.isOpen then (g, false) else (g, true)
    else
      (Stream(false, f.good), false)
  }

  /** Enabling file logging twice leaves `_logToFile` set and the stream
      open, so the worker goes on sending file records to the stream, and
      every one of them is lost. */
  lemma SecondEnableLosesFileRecords(ok1: bool, ok2: bool, out: seq<string>, text: string)
    requires ok1
    ensures var (f1, on1) := EnableAsWritten(Stream(false, true), true, ok1);
            var (f2, on2) := EnableAsWritten(f1, true, ok2);
            && on1 && on2 && f2.isOpen
            && Write(f2, out, text) == out
  {
  }

  /** In the model the logger's file sink survives a second enable: a file
      record logged after it reaches the file. */
  lemma ReEnableKeepsFileSink(s: Logger, ok: bool, site: Where, level: LogLevel, where: Where,
                              payload: string, timestamp: string, site2: Where)
    requires Live(s) && s.queue == []
    ensures var t := EnableFileLogging(s, true, ok, site);
            var u := LogToFile(t, level, where, payload, timestamp, site2);
            && Live(t)
            && WorkerStep(u).file == s.file + [FileLine(level, where, payload, timestamp)]
  {
    var t := EnableFileLogging(s, true, ok, site);
    var u := LogToFile(t, level, where, payload, timestamp, site2);
    assert u.queue == [LogMessage(level, where, FileLine(level, where, payload, timestamp), true)];
  }
}

=== FILE: text.dfy ===
/** String helpers the formatter is built from: the C library searches
    `strstr` and `strrchr`, `std::erase` of one character, and the decimal
    rendering `std::format` gives an unsigned line number. Strings are
    `seq<char>`; C strings never hold a NUL, so none of these look for one. */
module Text {

  datatype Option<T> = None | Some(value: T)

  /** No position of `s` holds `c`. */
  predicate Lacks(s: string, c: char) {
    forall i :: 0 <= i < |s| ==> s[i] != c
  }

  lemma LacksConcat(a: string, b: string, c: char)
    ensures Lacks(a + b, c) <==> Lacks(a, c) && Lacks(b, c)
  {
    if Lacks(a, c) && Lacks(b, c) {
      forall i | 0 <= i < |a + b| ensures (a + b)[i] != c {
        if i >= |a| { assert (a + b)[i] == b[i - |a|]; }
      }
    }
    if Lacks(a + b, c) {
      forall i | 0 <= i < |a| ensures a[i] != c {
        assert (a + b)[i] == a[i];
      }
      forall i | 0 <= i < |b| ensures b[i] != c {
        assert (a + b)[|a| + i] == b[i];
      }
    }
  }

  /** `r` is a tail of `s`. */
  predicate IsSuffix(r: string, s: string) {
    |r| <= |s| && s[|s| - |r|..] == r
  }

  lemma LacksSuffix(r: string, s: string, c: char)
    requires IsSuffix(r, s) && Lacks(s, c)
    ensures Lacks(r, c)
  {
    forall i | 0 <= i < |r| ensures r[i] != c {
      assert r[i] == s[|s| - |r| + i];
    }
  }

  /** A string that lacks `c` up to its last character, and not there either. */
  lemma LacksUpToLast(r: string, c: char)
    requires |r| > 0 && r[|r| - 1] != c && Lacks(r[..|r| - 1], c)
    ensures Lacks(r, c)
  {
    forall i | 0 <= i < |r| - 1 ensures r[i] != c {
      assert r[i] == r[..|r| - 1][i];
    }
  }

  /** `pat` occurs in `s` starting at position `i`. */
  predicate OccursAt(s: string, pat: string, i: int) {
    0 <= i && i + |pat| <= |s| && s[i..i + |pat|] == pat
  }

  lemma SuffixAppend(a: string, b: string, c: string)
    requires IsSuffix(a, b)
    ensures IsSuffix(a + c, b + c)
  {
    assert (b + c)[|b + c| - |a + c|..] == b[|b| - |a|..] + c;
  }

  /** A text joined from three parts opens with the first and ends with the
      last. */
  lemma JoinEnds(a: string, b: string, c: string)
    ensures |a| <= |a + (b + c)| && (a + (b + c))[..|a|] == a
    ensures IsSuffix(c, a + (b + c))
  {
    assert (a + (b + c))[|a + (b + c)| - |c|..] == c;
  }

  lemma SuffixPrepend(a: string, x: string, b: string)
    requires IsSuffix(a, b)
    ensures IsSuffix(a, x + b)
  {
    assert (x + b)[|x + b| - |a|..] == b[|b| - |a|..];
  }

  ghost predicate Contains(s: string, pat: string) {
    exists i :: OccursAt(s, pat, i)
  }

  lemma OccursAtTail(s: string, pat: string, i: nat)
    requires 1 <= |s|
    ensures OccursAt(s[1..], pat, i) <==> OccursAt(s, pat, i + 1)
  {
    if i + |pat| <= |s[1..]| {
      assert s[1..][i..i + |pat|] == s[i + 1..i + 1 + |pat|];
    }
  }

  /** `strstr`: the position of the FIRST occurrence of `pat` in `s`. */
  function IndexOf(s: string, pat: string): (r: Option<nat>)
    ensures r.Some? ==> OccursAt(s, pat, r.value)
    ensures r.Some? ==> forall j :: 0 <= j < r.value ==> !OccursAt(s, pat, j)
    ensures r.None? <==> !Contains(s, pat)
    decreases |s|
  {
    if |s| < |pat| then
      None
    else if s[..|pat|] == pat then
      assert OccursAt(s, pat, 0);
      Some(0)
    else
      match IndexOf(s[1..], pat)
      case None =>
        assert !Contains(s, pat) by {
          forall i | OccursAt(s, pat, i) ensures false {
            assert i != 0;
            OccursAtTail(s, pat, i - 1);
          }
        }
        None
      case Some(k) =>
        OccursAtTail(s, pat, k);
        assert forall j :: 0 <= j < k + 1 ==> !OccursAt(s, pat, j) by {
          forall j | 0 <= j < k + 1 ensures !OccursAt(s, pat, j) {
            if j > 0 { OccursAtTail(s, pat, j - 1); }
          }
        }
        Some(k + 1)
  }

  /** The first occurrence is the only position before which `pat` never occurs. */
  lemma IndexOfIsFirst(s: string, pat: string, k: nat)
    requires OccursAt(s, pat, k)
    requires forall j :: 0 <= j < k ==> !OccursAt(s, pat, j)
    ensures IndexOf(s, pat) == Some(k)
  {
    assert Contains(s, pat);
  }

  /** `strrchr`: the position of the LAST occurrence of `c` in `s`. */
  function LastIndexOf(s: string, c: char): (r: Option<nat>)
    ensures r.Some? ==> r.value < |s| && s[r.value] == c
    ensures r.Some? ==> Lacks(s[r.value + 1..], c)
    ensures r.None? <==> Lacks(s, c)
    decreases |s|
  {
    if |s| == 0 then
      None
    else if s[|s| - 1] == c then
      Some(|s| - 1)
    else
      var r := LastIndexOf(s[..|s| - 1], c);
      if r.Some? then
        assert s[r.value + 1..] == s[..|s| - 1][r.value + 1..] + [s[|s| - 1]];
        LacksConcat(s[..|s| - 1][r.value + 1..], [s[|s| - 1]], c);
        r
      else
        assert s == s[..|s| - 1] + [s[|s| - 1]];
        LacksConcat(s[..|s| - 1], [s[|s| - 1]], c);
        r
  }

  /** A `c` found in `s` lies before any tail of `s` free of `c`. */
  lemma CharBeforeFreeTail(s: string, start: nat, k: nat, c: char)
    requires start <= |s| && Lacks(s[start..], c)
    requires k < |s| && s[k] == c
    ensures k < start
  {
    forall i | start <= i < |s| ensures s[i] != c {
      assert s[start..][i - start] == s[i];
    }
  }

  /** A `c` with none after it is the one `strrchr` finds. */
  lemma LastIndexOfAt(s: string, c: char, k: nat)
    requires k < |s| && s[k] == c && Lacks(s[k + 1..], c)
    ensures LastIndexOf(s, c) == Some(k)
  {
    assert !Lacks(s, c);
    var r := LastIndexOf(s, c).value;
    CharBeforeFreeTail(s, k + 1, r, c);
    CharBeforeFreeTail(s, r + 1, k, c);
  }

  /** A `c` followed by a `c`-free tail is the last `c`. */
  lemma LastBeforeFreeTail(a: string, c: char, d: string)
    requires Lacks(d, c)
    ensures LastIndexOf(a + [c] + d, c) == Some(|a|)
  {
    var s := a + [c] + d;
    assert s[|a| + 1..] == d;
    LastIndexOfAt(s, c, |a|);
  }

  /** `std::erase(s, c)`: every `c` removed, the other characters kept in order. */
  function Erase(s: string, c: char): (r: string)
    ensures Lacks(r, c)
    ensures |r| <= |s|
    decreases |s|
  {
    if |s| == 0 then
      []
    else
      var tail := Erase(s[1..], c);
      var head := if s[0] == c then [] else [s[0]];
      LacksConcat(head, tail, c);
      head + tail
  }

  lemma {:induction false} EraseKeepsLacking(s: string, c: char)
    requires Lacks(s, c)
    ensures Erase(s, c) == s
    decreases |s|
  {
    if |s| > 0 {
      assert Lacks(s[1..], c);
      EraseKeepsLacking(s[1..], c);
      assert s == [s[0]] + s[1..];
    }
  }

  lemma {:induction false} EraseDistributes(a: string, b: string, c: char)
    ensures Erase(a + b, c) == Erase(a, c) + Erase(b, c)
    decreases |a|
  {
    if |a| > 0 {
      assert (a + b)[1..] == a[1..] + b;
      EraseDistributes(a[1..], b, c);
    } else {
      assert a + b == b;
    }
  }

  /** Erasing every `c` leaves exactly the other characters: the multiset of
      the result is that of `s` with all copies of `c` taken out. */
  lemma {:induction false} EraseCounts(s: string, c: char, d: char)
    ensures multiset(Erase(s, c))[d] == if d == c then 0 else multiset(s)[d]
    decreases |s|
  {
    if |s| > 0 {
      EraseCounts(s[1..], c, d);
      assert s == [s[0]] + s[1..];
      assert multiset(s) == multiset([s[0]]) + multiset(s[1..]);
      assert Erase(s, c) == (if s[0] == c then [] else [s[0]]) + Erase(s[1..], c);
    }
  }

  lemma EraseIdempotent(s: string, c: char)
    ensures Erase(Erase(s, c), c) == Erase(s, c)
  {
    EraseKeepsLacking(Erase(s, c), c);
  }

  predicate IsDigit(ch: char) {
    '0' <= ch <= '9'
  }

  predicate AllDigits(s: string) {
    forall i :: 0 <= i < |s| ==> IsDigit(s[i])
  }

  lemma DigitsLack(s: string, c: char)
    requires AllDigits(s) && !IsDigit(c)
    ensures Lacks(s, c)
  {
  }

  function DigitChar(d: nat): (ch: char)
    requires d < 10
    ensures IsDigit(ch)
    ensures (ch as int) - ('0' as int) == d
  {
    (('0' as int) + d) as char
  }

  /** The decimal text of an unsigned number, as `std::format("{}", n)`
      writes it: digits only, no sign, no leading zero. */
  function Decimal(n: nat): (r: string)
    ensures |r| > 0 && AllDigits(r)
    ensures r[0] == '0' ==> n == 0 && r == "0"
    decreases n
  {
    if n < 10 then [DigitChar(n)] else Decimal(n / 10) + [DigitChar(n % 10)]
  }

  /** Reads decimal text back: the inverse of `Decimal`. */
  function DecimalValue(s: string): nat
    requires AllDigits(s)
    decreases |s|
  {
    if |s| == 0 then 0
    else DecimalValue(s[..|s| - 1]) * 10 + ((s[|s| - 1] as int) - ('0' as int))
  }

  lemma {:induction false} DecimalRoundTrip(n: nat)
    ensures DecimalValue(Decimal(n)) == n
    decreases n
  {
    if n >= 10 {
      var d := Decimal(n);
      assert d[..|d| - 1] == Decimal(n / 10);
      DecimalRoundTrip(n / 10);
    }
  }

  lemma DecimalInjective(m: nat, n: nat)
    requires Decimal(m) == Decimal(n)
    ensures m == n
  {
    DecimalRoundTrip(m);
    DecimalRoundTrip(n);
  }
}
